=== FILE: README.md ===
# Sapphire encrypting-proxy launcher, modelled in Dafny

This project models the launcher of the Sapphire encrypting proxy,
`encrypting-proxy/src/main.rs`. The launcher parses the command line,
initialises `tracing`, and then runs one of two subcommands:

- `gen-csr` writes a certificate-signing request for the proxy's TLS key.
- `serve` builds the server configuration, optionally with TLS material
  read from disk, constructs one server, and runs its serve loop on the
  main thread and on a build-time number of extra threads.

The model covers four parts of that file:

- the fixed-width Base16 decoder of the runtime public key
  (`parse_byte_array`, with the `hex` crate's `decode_to_slice`);
- the argument rules clap enforces on `serve` and `gen-csr`, including the
  asymmetric `requires` between the key path and the certificate path;
- the assembly of the optional TLS configuration and the thread fan-out
  arithmetic;
- the mapping from `--log-level` to a `tracing` maximum level.

Everything is a pure function over sequences and datatypes, apart from two
methods for the spawning loop. The server, the crypto routines and the
operating system are parameters: the file system is a map from paths to
contents, the server constructor is a predicate on configurations, and UTF-8
validation, the P-256 key decoder and the CSR signer are function
parameters. Command-line strings that reach byte-level parsers are modelled
as their UTF-8 bytes.

Modules, one per component: `Base` (shared types), `Hex` (key decoding),
`Decimal` (`usize::from_str`), `Files` (reads and writes), `Logging`
(`--log-level` and `init_tracing`), `Cli` (clap's parsing rules), `Serve`
(the `serve` arm), `GenCsr` (the `gen-csr` arm) and `Launcher` (`main`).

## Behaviour of the code worth knowing

- `--runtime-public-key` is required: it has no default and is not an `Option`.
- The two TLS paths are not symmetric. A key path without a certificate
  path is rejected. A certificate path without a key path is accepted, and
  `serve` then panics at the `unwrap` once the certificate has been read.
- The request-size default is the text `1024 * 1024`. That text is not a
  number, so omitting the argument never yields 1 MiB (see Findings).
- A `gen-csr` key path that does not exist is a usage error raised by
  `ensure_file_exists` while parsing. It is not an I/O error of the
  subcommand. clap checks that required arguments are present before it
  runs value parsers, so a missing argument is reported first.
- A release build installs the subscriber with `init()`, which panics if a
  subscriber is already installed. A debug build uses `try_init().ok()` and
  carries on without one.
- The SGX `todo!()` is reached only when a certificate path is given, and
  only after the certificate has been read.
- `trim_start_matches("0x")` strips every leading `0x`, not just one.
- The SGX build does not compile as written. `sep::csr::generate` at
  encrypting-proxy/src/main.rs:33 uses `secret_key`, which only the
  non-SGX `let` at encrypting-proxy/src/main.rs:23-32 binds. So every
  result the model states for `sgx = true` describes the rest of an SGX
  build whose `gen-csr` arm has been made to compile. Those results are
  the `todo!()` panic of `Serve.AssembleTls`, the rejection of
  `--tls-secret-key-path`, and the missing `debug`/`trace` levels of SGX
  release builds.

## Model

| member | source | states |
|---|---|---|
| `Hex.StripHexPrefix` | encrypting-proxy/src/main.rs:174 | The result never starts with `0x`, and the input is exactly some number of `0x` copies followed by the result; nothing else is removed |
| `Hex.PrefixesIgnored` | encrypting-proxy/src/main.rs:174 | `h`, `0x`+`h`, `0x0x`+`h`, ... all parse to the same result |
| `Hex.DecodePairs` | encrypting-proxy/src/main.rs:176 | Succeeds iff every byte is a hex digit; byte i is digit 2i (high) and 2i+1 (low); a failure names the first non-digit and its index |
| `Hex.DecodeToSlice` | encrypting-proxy/src/main.rs:176 | Odd length is `OddLength`; an even length other than twice the width is `InvalidStringLength`; success iff right length and all digits, with the exact width and pairwise byte values; a bad-character error names the first non-digit |
| `Hex.ParseByteArray` | encrypting-proxy/src/main.rs:173-178 | After stripping: an odd length, a wrong even length or any non-digit is an error and never a partial key; success has exactly 32 bytes, byte i spelled by digits 2i and 2i+1 in either case |
| `Hex.RoundTrip` | encrypting-proxy/src/main.rs:173-178 | Every 32-byte key, encoded in lower or upper case behind any number of `0x` prefixes, parses back to itself |
| `Hex.ParsedIffSpelled` | encrypting-proxy/src/main.rs:173-178 | An input parses to a key iff its stripped form spells that key's encoding up to letter case, so the decoder is injective up to case |
| `Hex.OddKeyRejected` | encrypting-proxy/src/main.rs:157-158 | A 63-digit key is rejected with `OddLength` |
| `Decimal.Accumulate` | encrypting-proxy/src/main.rs:153-154 | The checked digit loop succeeds iff all bytes are digits and the exact value fits in `usize`, returning that value; with only digits, failure is an overflow |
| `Decimal.ParseUsize` | encrypting-proxy/src/main.rs:66 | `Empty` iff the text is empty; success iff the text (after one optional `+`) is non-empty digits whose value fits in `usize`, returning that value |
| `Decimal.ParseToDecimal` | encrypting-proxy/src/main.rs:66 | Every `usize` parses back from its decimal spelling |
| `Decimal.ParseOverflow` | encrypting-proxy/src/main.rs:66 | A value above `usize::MAX` is reported as overflow, not wrapped |
| `Decimal.ParsePlus` | encrypting-proxy/src/main.rs:153-154 | One leading `+` is accepted |
| `Decimal.AccumulateStopsAtNonDigit` | encrypting-proxy/src/main.rs:153-154 | The digit loop reports an invalid digit at the first non-digit when the digits before it fit in `usize`, whatever follows |
| `Decimal.ParseStopsAtNonDigit` | encrypting-proxy/src/main.rs:153-154 | A non-empty decimal prefix that fits, followed by a non-digit, fails as an invalid digit, not as an overflow or as empty |
| `Files.ReadFile` | encrypting-proxy/src/main.rs:195-197 | A read succeeds iff the path exists and is readable, and then returns exactly that file's contents; its error names the path |
| `Files.ReadToString` | encrypting-proxy/src/main.rs:25-29 | Text read succeeds iff the file reads and is UTF-8, giving the same bytes; its error names the path |
| `Files.Write` | encrypting-proxy/src/main.rs:34-36 | A write fails iff the path cannot be written, and its error is "failed to write" naming the path |
| `Files.ReadAfterWrite` | encrypting-proxy/src/main.rs:34-36 | A successful write reads back as the written bytes and leaves every other path unchanged |
| `Logging.MaxLevel` | encrypting-proxy/src/main.rs:80-87 | `Off` has no level; every other level maps to the `tracing` level of the same rank |
| `Logging.InitTracing` | encrypting-proxy/src/main.rs:79-98 | `Off` installs nothing; otherwise it installs the mapped maximum level, as JSON in release builds and compact output in debug builds; it panics, with the subscriber-install failure, only in a release build when a subscriber already exists; with no prior subscriber every level but `Off` installs one; a debug build with a prior subscriber carries on without one |
| `Logging.RecordedEvents` | encrypting-proxy/src/main.rs:80-91 | At start-up a level records exactly the events no more verbose than itself, so `Off` records none |
| `Logging.MaxLevelInjective` | encrypting-proxy/src/main.rs:80-87 | Distinct command-line levels map to distinct `tracing` levels |
| `Logging.MaxLevelMonotone` | encrypting-proxy/src/main.rs:80-89 | A more verbose command-line level records a superset of the events |
| `Logging.ParseLogLevel` | encrypting-proxy/src/main.rs:100-119 | An absent level is `info`; an accepted name is that level's own name and is available in the build (no `debug`/`trace` in SGX release builds); a rejected name is the name of no level available in the build |
| `Logging.ParseName` | encrypting-proxy/src/main.rs:109-119 | Every level of the build is accepted by its name |
| `Cli.ParseGenCsr` | encrypting-proxy/src/main.rs:123-141 | Succeeds iff all three arguments are given and the key file exists; a missing argument is reported as missing, naming one of the absent arguments, ahead of the file check; with all three given, a missing key file is `FileDoesNotExist` |
| `Cli.ParseServeWith` | encrypting-proxy/src/main.rs:143-169 | Succeeds iff every `serve` rule holds (key required and 32 bytes, size a `usize`, paths exist, key path needs a certificate path, no key path under SGX); any error names a broken rule; an argument the build does not declare is reported first, then missing required arguments, then bad values; success carries the decoded key, the parsed size, the defaults and the paths |
| `Cli.KeyWithoutCertRejected` | encrypting-proxy/src/main.rs:160-163 | A key path without a certificate path is rejected |
| `Cli.CertWithoutKeyAccepted` | encrypting-proxy/src/main.rs:165-169 | A certificate path without a key path passes parsing when everything else does |
| `Cli.MissingFileRejected` | encrypting-proxy/src/main.rs:189-193 | A path argument naming no file is rejected |
| `Cli.DefaultTextIsNotANumber` | encrypting-proxy/src/main.rs:153 | The default text `1024 * 1024` fails `usize::from_str` with an invalid digit |
| `Cli.OmittedRequestSizeRejected` | encrypting-proxy/src/main.rs:152-154 | As written, every `serve` command without the request-size argument is rejected |
| `Cli.OmittedRequestSizeIsOneMiB` | encrypting-proxy/src/main.rs:152-154 | With a numeric default, omitting the argument gives 1048576 when the other rules hold |
| `Cli.CorrectedCertRequiresKey` | encrypting-proxy/src/main.rs:167 | With the reverse rule naming the key path, a parsed command has both TLS paths or neither |
| `Cli.ParseArgs` | encrypting-proxy/src/main.rs:100-107 | The command line parses iff the level and the chosen subcommand do, and the result carries both parses; a rejection reports either an invalid level or the chosen subcommand's own error |
| `Serve.AssembleTls` | encrypting-proxy/src/main.rs:53-63 | TLS material exists iff a certificate path was given and both files were read, holding exactly the certificate's and key's contents; an unreadable certificate is an error naming it; a readable certificate and an unreadable key (default build) is an error naming the key; a certificate without a key path panics at the `unwrap`; under SGX a readable certificate panics at `todo!()` |
| `Serve.TlsFromBothFiles` | encrypting-proxy/src/main.rs:53-63 | With both files readable, the certificate field holds the certificate file and the key field holds the key file |
| `Serve.CorrectedParseNeverUnwrapsNone` | encrypting-proxy/src/main.rs:58 | Under the corrected rules, no parsed command reaches the `unwrap` of a missing key path |
| `Serve.NumExtraThreads` | encrypting-proxy/src/main.rs:66-68 | For n >= 1 one thread fewer than n is spawned; n = 0 panics under overflow checks and wraps to `usize::MAX` without them |
| `Serve.LaunchServeLoops` | encrypting-proxy/src/main.rs:69-74 | The spawning loop plus the main thread's own loop run one more serve loop than were spawned, all on the one server |
| `Serve.FanOut` | encrypting-proxy/src/main.rs:66-74 | For n >= 1 exactly n serve loops share the one server, n - 1 of them spawned (so none when n = 1) |
| `Serve.RunServe` | encrypting-proxy/src/main.rs:48-75 | On success the server's configuration holds the parsed values and the assembled TLS material, the constructor accepted it, and n - 1 threads were spawned; errors come only from TLS file reads and are exactly the read error naming the file, and a panic in TLS assembly (`unwrap` or `todo!()`) propagates unchanged; a refused configuration panics; with TLS assembled and the configuration accepted, an unparsable thread count panics, 0 panics under overflow checks, and any other count serves on exactly that configuration |
| `GenCsr.RunGenCsr` | encrypting-proxy/src/main.rs:16-38 | Never panics; an unreadable or non-UTF-8 key file is the I/O error naming it; a key that does not decode is `InvalidPrivateKey`; after a good key, a refused signing is `CsrGenerationFailed`, a read-only output path is the write error naming it, and otherwise the run succeeds; success writes the signed request to the output path, where it reads back |
| `GenCsr.KeyErrorsAreDistinct` | encrypting-proxy/src/main.rs:23-32 | With all three arguments given, a missing key path is a usage error at parse time; an existing file that is not a key is `InvalidPrivateKey`, not an I/O error |
| `Launcher.Process` | encrypting-proxy/src/main.rs:10-77 | A run is rejected before any logging or file change iff parsing fails, and then carries the parser's error; otherwise logging is set up from the parsed level; only `gen-csr` changes files, and only `serve` serves forever; a parsed command ends the way its subcommand ends: success of `gen-csr` returns `Ok` with the written files, success of `serve` serves forever, an error is returned and a panic aborts |
| `Launcher.MalformedKeyRejectedBeforeBinding` | encrypting-proxy/src/main.rs:157-158 | A key whose stripped length is not 64 ends the run at parse time, whatever the server constructor would do |
| `Launcher.CertWithoutKeyPanics` | encrypting-proxy/src/main.rs:58 | In the default build, a parsed `serve` with a readable certificate and no key path aborts at the `unwrap` |
| `Launcher.OffRecordsNothing` | encrypting-proxy/src/main.rs:80-81 | With `--log-level off` no event is ever recorded, however the run ends |

## Left out

- clap's tokenising of the command line is not modelled. Subcommand
  dispatch, `--help`, and the order in which several broken rules are
  reported are clap's. The model fixes one reporting order and promises
  only that the reported rule is broken.
- clap's self-checks in debug builds are not modelled. The model follows
  release-build clap, where a `requires` naming an unknown id is ignored.
- Launcher.CertWithoutKeyPanics: its default-build debug instances cannot happen.
  In a debug build, clap's self-check rejects the unknown `requires` id
  before `main`'s body runs, so no default-build debug `serve` gets that
  far. The same holds for the default-build debug results of
  `Serve.RunServe`, `Serve.NumExtraThreads` and `Serve.FanOut`. Under SGX
  the reverse `requires` is compiled out, so there is nothing to reject.
- `SocketAddr` and `Url` parsing are library behaviour. Listen address and
  gateway URL are taken as already-parsed strings, with their defaults.
- `env!` reading is compile-time. The thread count's text is a parameter,
  and its `parse().unwrap()` is modelled.
- File I/O is an abstract file system. A path exists, reads or not, and is
  writable or not.
- `sep::Server::new` and `serve()` are the external server. Construction is
  a predicate on the configuration. A serve loop is the handle it runs on.
  Accepting connections, blocking and thread scheduling are out of scope.
- With n = 0 and no overflow checks, the loop would try to spawn `usize::MAX`
  threads. The model records that count. What the operating system does
  when spawning fails is out of scope.
- UTF-8 validation, `p256::SecretKey::from_sec1_pem` and
  `sep::csr::generate` are external. They are function parameters.
- `gen-csr` is modelled for the default build only. Its SGX arm uses a
  secret key that nothing binds, so that build does not compile.
- The SGX secret-key provisioning is a `todo!()` in the source. It is
  modelled as a single panic, with no provisioning logic.
- `tracing_subscriber` setup is reduced to its result: the maximum level
  and the output format. Span events, targets, ANSI colours, the test
  writer and output formatting are logging side effects.
- Launcher.Process: it never sees a subscriber installed before `main`
  starts, so the release-mode `init()` panic shows up only in
  `Logging.InitTracing`.

## Findings

| source | as written | input that shows it | evidently intended | confidence | as-written member | corrected member |
|---|---|---|---|---|---|---|
| encrypting-proxy/src/main.rs:153 | `default_value = "1024 * 1024"` for a `usize` argument; clap parses the default text with `usize::from_str`, which fails at the space | `serve --runtime-public-key <64 hex digits>` without the hidden positional size | a default of 1048576 (1 MiB) | not executed; medium (relies on clap 3 parsing default values like given ones) | `Cli.OmittedRequestSizeRejected` | `Cli.OmittedRequestSizeIsOneMiB` |
| encrypting-proxy/src/main.rs:167 | `requires = "tls-private-key-path"`, an id no argument has (the key argument is `tls-secret-key-path`), so a certificate path without a key path passes parsing and panics at `unwrap` (encrypting-proxy/src/main.rs:58) | `serve --runtime-public-key <64 hex digits> --tls-cert-path <readable file>` with no key path | the certificate path requires the key path, so both are given or neither | not executed; high | `Launcher.CertWithoutKeyPanics` | `Cli.CorrectedCertRequiresKey` |

The corrected rules are `Cli.CORRECTED`, parsed by `Cli.ParseServeCorrected`.
`Serve.CorrectedParseNeverUnwrapsNone` proves that a command parsed under
them never reaches the panicking `unwrap`. The `serve` arm consumes a parsed
`Cli.ServeArgs`, so it runs the same under either parser. `Launcher.Process`
uses the as-written parser, because it models the program as it is.

=== FILE: base.dfy ===
/** Shared vocabulary of the launcher model: machine integers, paths, build
    configuration, and the ways a run of the launcher can end. */
module Base {

  /** An octet. Command-line strings handed to byte-level parsers are their
      UTF-8 bytes. */
  type byte = x: int | 0 <= x < 0x100

  /** `usize` on the 64-bit targets the proxy is built for. */
  const USIZE_MAX: int := 0xFFFF_FFFF_FFFF_FFFF
  type usize = x: int | 0 <= x <= USIZE_MAX

  type Path = string

  datatype Option<+T> = None | Some(value: T) {

    /** The value, or `default` when there is none. */
    function GetOr(default: T): T
    {
      match this
      case Some(v) => v
      case None => default
    }
  }

  datatype Result<+T, +E> = Ok(value: T) | Err(error: E)

  /** The two compile-time switches the launcher's behaviour depends on:
      the SGX target environment, and debug assertions (which also turn on
      integer overflow checks in the default Cargo profiles). */
  datatype Build = Build(sgx: bool, debugAssertions: bool)

  /** Errors that `main` returns through `?`: the process prints them and
      exits with a non-zero status. */
  datatype AppError =
    | CouldNotRead(path: Path)      // context added by read_file / read_to_string
    | FailedToWrite(path: Path)     // context added around std::fs::write
    | InvalidPrivateKey             // the SEC1 PEM key did not decode
    | CsrGenerationFailed           // error of the CSR-signing collaborator

  /** Reasons for which the process panics instead of returning. */
  datatype Panic =
    | UnwrapOnNone                  // `tls_secret_key_path.as_ref().unwrap()`
    | NotYetImplemented             // `todo!()` of the SGX secret key
    | FailedToStartServer           // `.expect("failed to start server")`
    | ThreadCountNotANumber         // `.parse().unwrap()` of the build-time count
    | SubtractWithOverflow          // `num_threads - 1` under overflow checks
    | SubscriberInstallFailed       // `init()` of the release-mode subscriber

  /** How one step of `main` ends: with a value, with an error returned
      through `?`, or with a panic. */
  datatype Outcome<+T> = Done(value: T) | Failed(error: AppError) | Panicked(reason: Panic)

  /** The bytes of an ASCII string literal. */
  function AsciiBytes(s: string): seq<byte>
    requires forall i :: 0 <= i < |s| ==> s[i] as int < 0x80
  {
    seq(|s|, i requires 0 <= i < |s| => s[i] as int)
  }
}

=== FILE: cli.dfy ===
/** The command line (`Args` and `Command`,
    encrypting-proxy/src/main.rs:100-171) as clap, in a release build,
    turns it into parsed values: defaults, value parsers
    (`parse_byte_array`, `ensure_file_exists`, `usize::from_str`) and the
    `requires` rules between arguments. The listen address and the upstream
    URL are taken as already-parsed values. */
module Cli {
  import opened Base
  import opened Hex
  import opened Decimal
  import opened Files
  import opened Logging

  datatype ArgName =
    | LogLevelArg
    | TlsSecretKeyPathArg
    | SubjectArg
    | CsrPathArg
    | MaxRequestSizeBytesArg
    | RuntimePublicKeyArg
    | TlsCertPathArg

  /** Why clap rejects a command line; the process prints usage and exits
      before `main`'s body runs. */
  datatype UsageError =
    | InvalidLogLevel
    | FileDoesNotExist(arg: ArgName)
    | InvalidPublicKey(cause: HexError)
    | InvalidNumber(arg: ArgName, kind: IntErrorKind)
    | MissingRequired(arg: ArgName)
    | UnexpectedArgument(arg: ArgName)

  const DEFAULT_LISTEN_ADDR: string := "127.0.0.1:23294"
  const DEFAULT_WEB3_GATEWAY_URL: string := "http://localhost:8545"

  /** The default of `max_request_size_bytes` exactly as written: a piece of
      Rust syntax that clap hands to `usize::from_str`, not a number. */
  const MAX_REQUEST_SIZE_DEFAULT: seq<byte> := AsciiBytes("1024 * 1024")

  /** The default evidently meant: 1 MiB, spelled as a `usize` literal. */
  const INTENDED_MAX_REQUEST_SIZE_DEFAULT: seq<byte> := ToDecimal(1024 * 1024)

  /** The two points where the declared arguments and their evident intent
      part ways: the default text of the request size, and whether a
      certificate path really requires a key path. */
  datatype Rules = Rules(maxRequestSizeDefault: seq<byte>, certRequiresKey: bool)

  /** The rules as written: the reverse `requires` names no argument. */
  const AS_WRITTEN: Rules := Rules(MAX_REQUEST_SIZE_DEFAULT, false)

  /** The rules as evidently intended. */
  const CORRECTED: Rules := Rules(INTENDED_MAX_REQUEST_SIZE_DEFAULT, true)

  /* ---------------------------------------------------------------------
     `gen-csr`
     --------------------------------------------------------------------- */

  /** The `gen-csr` arguments as given (absent ones are `None`). */
  datatype GenCsrArgv = GenCsrArgv(tlsSecretKeyPath: Option<Path>, subject: Option<string>, csrPath: Option<Path>)

  datatype GenCsrArgs = GenCsrArgs(tlsSecretKeyPath: Path, subject: string, csrPath: Path)

  /** `gen-csr` in the default build: all three arguments are required, and
      the key path goes through `ensure_file_exists`
      (encrypting-proxy/src/main.rs:127-141, 189-193). clap checks that
      required arguments are present before it runs value parsers, so a
      missing argument is reported ahead of a key file that does not
      exist. */
  function ParseGenCsr(a: GenCsrArgv, fs: FileSystem): (r: Result<GenCsrArgs, UsageError>)
    ensures r.Ok? <==> a.tlsSecretKeyPath.Some? && a.subject.Some? && a.csrPath.Some?
                       && Exists(fs, a.tlsSecretKeyPath.value)
    ensures r.Ok? ==> r.value == GenCsrArgs(a.tlsSecretKeyPath.value, a.subject.value, a.csrPath.value)
    ensures a.tlsSecretKeyPath.None? || a.subject.None? || a.csrPath.None? ==>
              r.Err? && r.error.MissingRequired?
    ensures r.Err? ==>
              || (r.error == MissingRequired(TlsSecretKeyPathArg) && a.tlsSecretKeyPath.None?)
              || (r.error == MissingRequired(SubjectArg) && a.subject.None?)
              || (r.error == MissingRequired(CsrPathArg) && a.csrPath.None?)
              || (r.error == FileDoesNotExist(TlsSecretKeyPathArg) && a.tlsSecretKeyPath.Some?
                  && !Exists(fs, a.tlsSecretKeyPath.value))
    ensures a.tlsSecretKeyPath.Some? && a.subject.Some? && a.csrPath.Some? && !Exists(fs, a.tlsSecretKeyPath.value) ==>
              r == Err(FileDoesNotExist(TlsSecretKeyPathArg))
  {
    if a.tlsSecretKeyPath.None? then Err(MissingRequired(TlsSecretKeyPathArg))
    else if a.subject.None? then Err(MissingRequired(SubjectArg))
    else if a.csrPath.None? then Err(MissingRequired(CsrPathArg))
    else if !Exists(fs, a.tlsSecretKeyPath.value) then Err(FileDoesNotExist(TlsSecretKeyPathArg))
    else Ok(GenCsrArgs(a.tlsSecretKeyPath.value, a.subject.value, a.csrPath.value))
  }

  /* ---------------------------------------------------------------------
     `serve`
     --------------------------------------------------------------------- */

  /** The `serve` arguments as given (absent ones are `None`); byte-level
      values are the UTF-8 bytes of the argument. */
  datatype ServeArgv = ServeArgv(
    listenAddr: Option<string>,
    web3GatewayUrl: Option<string>,
    maxRequestSizeBytes: Option<seq<byte>>,
    runtimePublicKey: Option<seq<byte>>,
    tlsSecretKeyPath: Option<Path>,
    tlsCertPath: Option<Path>)

  /** The parsed `Command::Serve`. */
  datatype ServeArgs = ServeArgs(
    listenAddr: string,
    web3GatewayUrl: string,
    maxRequestSizeBytes: usize,
    runtimePublicKey: seq<byte>,
    tlsSecretKeyPath: Option<Path>,
    tlsCertPath: Option<Path>)

  /** The text `usize::from_str` sees for `max_request_size_bytes`. */
  function MaxRequestSizeText(a: ServeArgv, default: seq<byte>): seq<byte>
  {
    a.maxRequestSizeBytes.GetOr(default)
  }

  /** Every rule `serve` imposes, each stated on its own:
      - the runtime public key is required and parses to 32 bytes
        (encrypting-proxy/src/main.rs:156-158);
      - the request size, given or defaulted, parses as a `usize`
        (encrypting-proxy/src/main.rs:152-154);
      - the key path exists only outside SGX, and names an existing file
        (encrypting-proxy/src/main.rs:160-163);
      - the certificate path names an existing file
        (encrypting-proxy/src/main.rs:165-169);
      - a key path requires a certificate path
        (encrypting-proxy/src/main.rs:162);
      - the reverse `requires` names `tls-private-key-path`, an id no
        argument has, so as written clap checks nothing for it
        (encrypting-proxy/src/main.rs:167); `certRequiresKey` is the check
        it evidently meant, absent under SGX where the attribute is off. */
  ghost predicate ServeRulesHold(a: ServeArgv, fs: FileSystem, build: Build, rules: Rules)
  {
    && a.runtimePublicKey.Some?
    && ParseByteArray(a.runtimePublicKey.value).Ok?
    && ParseUsize(MaxRequestSizeText(a, rules.maxRequestSizeDefault)).Ok?
    && (a.tlsSecretKeyPath.Some? ==> !build.sgx && Exists(fs, a.tlsSecretKeyPath.value))
    && (a.tlsCertPath.Some? ==> Exists(fs, a.tlsCertPath.value))
    && (a.tlsSecretKeyPath.Some? ==> a.tlsCertPath.Some?)
    && (rules.certRequiresKey && !build.sgx && a.tlsCertPath.Some? ==> a.tlsSecretKeyPath.Some?)
  }

  /** The rule an error reports is one that is broken. */
  ghost predicate ReportsBrokenRule(a: ServeArgv, fs: FileSystem, build: Build, rules: Rules, e: UsageError)
  {
    match e
    case InvalidPublicKey(cause) =>
      a.runtimePublicKey.Some? && ParseByteArray(a.runtimePublicKey.value) == Err(cause)
    case InvalidNumber(arg, kind) =>
      arg == MaxRequestSizeBytesArg && ParseUsize(MaxRequestSizeText(a, rules.maxRequestSizeDefault)) == Err(kind)
    case UnexpectedArgument(arg) =>
      arg == TlsSecretKeyPathArg && a.tlsSecretKeyPath.Some? && build.sgx
    case FileDoesNotExist(arg) =>
      || (arg == TlsSecretKeyPathArg && a.tlsSecretKeyPath.Some? && !Exists(fs, a.tlsSecretKeyPath.value))
      || (arg == TlsCertPathArg && a.tlsCertPath.Some? && !Exists(fs, a.tlsCertPath.value))
    case MissingRequired(arg) =>
      || (arg == RuntimePublicKeyArg && a.runtimePublicKey.None?)
      || (arg == TlsCertPathArg && a.tlsSecretKeyPath.Some? && a.tlsCertPath.None?)
      || (arg == TlsSecretKeyPathArg && rules.certRequiresKey && !build.sgx
          && a.tlsCertPath.Some? && a.tlsSecretKeyPath.None?)
    case _ => false
  }

  /** `serve` parsed under the given rules. An argument the build does not
      declare is rejected while the command line is read; then, as in
      clap's validator, missing required arguments (including those a
      `requires` rule asks for) are reported before values are parsed.
      Among several broken rules of one kind clap reports the one met first
      on the command line; the model fixes one order. */
  function ParseServeWith(a: ServeArgv, fs: FileSystem, build: Build, rules: Rules): (r: Result<ServeArgs, UsageError>)
    ensures r.Ok? <==> ServeRulesHold(a, fs, build, rules)
    ensures r.Err? ==> ReportsBrokenRule(a, fs, build, rules, r.error)
    ensures a.tlsSecretKeyPath.Some? && build.sgx ==> r == Err(UnexpectedArgument(TlsSecretKeyPathArg))
    ensures !(a.tlsSecretKeyPath.Some? && build.sgx) &&
            (|| a.runtimePublicKey.None?
             || (a.tlsSecretKeyPath.Some? && a.tlsCertPath.None?)
             || (rules.certRequiresKey && !build.sgx && a.tlsCertPath.Some? && a.tlsSecretKeyPath.None?)) ==>
              r.Err? && r.error.MissingRequired?
    ensures r.Ok? ==>
              && ParseByteArray(a.runtimePublicKey.value) == Ok(r.value.runtimePublicKey)
              && |r.value.runtimePublicKey| == KEY_LEN
              && ParseUsize(MaxRequestSizeText(a, rules.maxRequestSizeDefault)) == Ok(r.value.maxRequestSizeBytes)
              && r.value.listenAddr == a.listenAddr.GetOr(DEFAULT_LISTEN_ADDR)
              && r.value.web3GatewayUrl == a.web3GatewayUrl.GetOr(DEFAULT_WEB3_GATEWAY_URL)
              && r.value.tlsSecretKeyPath == a.tlsSecretKeyPath
              && r.value.tlsCertPath == a.tlsCertPath
  {
    var key := if a.runtimePublicKey.Some? then ParseByteArray(a.runtimePublicKey.value) else Ok([]);
    var size := ParseUsize(MaxRequestSizeText(a, rules.maxRequestSizeDefault));
    if a.tlsSecretKeyPath.Some? && build.sgx then Err(UnexpectedArgument(TlsSecretKeyPathArg))
    else if a.runtimePublicKey.None? then Err(MissingRequired(RuntimePublicKeyArg))
    else if a.tlsSecretKeyPath.Some? && a.tlsCertPath.None? then Err(MissingRequired(TlsCertPathArg))
    else if rules.certRequiresKey && !build.sgx && a.tlsCertPath.Some? && a.tlsSecretKeyPath.None? then
      Err(MissingRequired(TlsSecretKeyPathArg))
    else if key.Err? then Err(InvalidPublicKey(key.error))
    else if size.Err? then Err(InvalidNumber(MaxRequestSizeBytesArg, size.error))
    else if a.tlsSecretKeyPath.Some? && !Exists(fs, a.tlsSecretKeyPath.value) then
      Err(FileDoesNotExist(TlsSecretKeyPathArg))
    else if a.tlsCertPath.Some? && !Exists(fs, a.tlsCertPath.value) then
      Err(FileDoesNotExist(TlsCertPathArg))
    else
      Ok(ServeArgs(
        a.listenAddr.GetOr(DEFAULT_LISTEN_ADDR),
        a.web3GatewayUrl.GetOr(DEFAULT_WEB3_GATEWAY_URL),
        size.value,
        key.value,
        a.tlsSecretKeyPath,
        a.tlsCertPath))
  }

  /** `serve` as written. */
  function ParseServe(a: ServeArgv, fs: FileSystem, build: Build): Result<ServeArgs, UsageError>
  {
    ParseServeWith(a, fs, build, AS_WRITTEN)
  }

  /** `serve` with the default request size spelled as a number and the
      reverse `requires` naming the key path. */
  function ParseServeCorrected(a: ServeArgv, fs: FileSystem, build: Build): Result<ServeArgs, UsageError>
  {
    ParseServeWith(a, fs, build, CORRECTED)
  }

  /** A key path without a certificate path is rejected at parse time
      (encrypting-proxy/src/main.rs:162). */
  lemma KeyWithoutCertRejected(a: ServeArgv, fs: FileSystem, build: Build)
    requires a.tlsSecretKeyPath.Some? && a.tlsCertPath.None?
    ensures ParseServe(a, fs, build).Err?
    ensures ParseServeCorrected(a, fs, build).Err?
  {
  }

  /** The asymmetry: a certificate path without a key path passes parsing
      whenever everything else does, and the parsed command carries no key
      path (encrypting-proxy/src/main.rs:167). */
  lemma CertWithoutKeyAccepted(a: ServeArgv, fs: FileSystem, build: Build)
    requires a.tlsCertPath.Some? && a.tlsSecretKeyPath.None?
    requires Exists(fs, a.tlsCertPath.value)
    requires a.runtimePublicKey.Some? && ParseByteArray(a.runtimePublicKey.value).Ok?
    requires ParseUsize(MaxRequestSizeText(a, MAX_REQUEST_SIZE_DEFAULT)).Ok?
    ensures ParseServe(a, fs, build).Ok?
    ensures ParseServe(a, fs, build).value.tlsCertPath.Some?
    ensures ParseServe(a, fs, build).value.tlsSecretKeyPath.None?
  {
  }

  /** With the reverse rule naming the key path, the default build rejects
      a certificate path without a key path, so the two paths are given
      both or neither. */
  lemma CorrectedCertRequiresKey(a: ServeArgv, fs: FileSystem, build: Build)
    requires !build.sgx
    ensures ParseServeCorrected(a, fs, build).Ok? ==>
              (ParseServeCorrected(a, fs, build).value.tlsCertPath.Some? <==>
               ParseServeCorrected(a, fs, build).value.tlsSecretKeyPath.Some?)
    ensures a.tlsCertPath.Some? && a.tlsSecretKeyPath.None? ==> ParseServeCorrected(a, fs, build).Err?
  {
  }

  /** A path argument is accepted only if the file exists
      (encrypting-proxy/src/main.rs:189-193). */
  lemma MissingFileRejected(a: ServeArgv, fs: FileSystem, build: Build, rules: Rules)
    requires || (a.tlsCertPath.Some? && !Exists(fs, a.tlsCertPath.value))
             || (a.tlsSecretKeyPath.Some? && !Exists(fs, a.tlsSecretKeyPath.value))
    ensures ParseServeWith(a, fs, build, rules).Err?
  {
  }

  /** The default text `1024 * 1024` is not a `usize`: the space after
      `1024` is an invalid digit. */
  lemma DefaultTextIsNotANumber()
    ensures ParseUsize(MAX_REQUEST_SIZE_DEFAULT) == Err(InvalidDigit)
  {
    var s := MAX_REQUEST_SIZE_DEFAULT;
    var ds: seq<byte> := [0x31, 0x30, 0x32, 0x34];
    assert s[..4] == ds;
    assert s[4] == 0x20;
    assert DigitsValue(ds[4..], 1024) == 1024;
    assert DigitsValue(ds[3..], 102) == 1024;
    assert DigitsValue(ds[2..], 10) == 1024;
    assert DigitsValue(ds[1..], 1) == 1024;
    assert s == ds + s[4..];
    ParseStopsAtNonDigit(ds, s[4..]);
  }

  /** As written, `serve` without the hidden request-size argument is
      always rejected: the default never parses. */
  lemma OmittedRequestSizeRejected(a: ServeArgv, fs: FileSystem, build: Build)
    requires a.maxRequestSizeBytes.None?
    ensures ParseServe(a, fs, build).Err?
  {
    DefaultTextIsNotANumber();
  }

  /** With the default spelled as a number, omitting the argument gives
      1 MiB whenever the other rules hold. */
  lemma OmittedRequestSizeIsOneMiB(a: ServeArgv, fs: FileSystem, build: Build)
    requires a.maxRequestSizeBytes.None?
    requires a.runtimePublicKey.Some? && ParseByteArray(a.runtimePublicKey.value).Ok?
    requires a.tlsSecretKeyPath.Some? ==> !build.sgx && Exists(fs, a.tlsSecretKeyPath.value)
    requires a.tlsCertPath.Some? ==> Exists(fs, a.tlsCertPath.value)
    requires a.tlsSecretKeyPath.Some? <==> a.tlsCertPath.Some?
    ensures ParseServeCorrected(a, fs, build).Ok?
    ensures ParseServeCorrected(a, fs, build).value.maxRequestSizeBytes == 1024 * 1024
  {
    ParseToDecimal(1024 * 1024);
  }

  /* ---------------------------------------------------------------------
     The whole command line.
     --------------------------------------------------------------------- */

  datatype CommandArgv = GenCsrCommand(genCsr: GenCsrArgv) | ServeCommand(serve: ServeArgv)

  datatype Argv = Argv(logLevel: Option<string>, command: CommandArgv)

  datatype Command = GenCsr(genCsr: GenCsrArgs) | Serve(serve: ServeArgs)

  datatype Args = Args(logLevel: LogLevel, command: Command)

  /** `clap::Parser::parse` of `Args` (encrypting-proxy/src/main.rs:11,
      100-107): the global level first, then the subcommand. */
  function ParseArgs(a: Argv, fs: FileSystem, build: Build): (r: Result<Args, UsageError>)
    ensures r.Ok? ==> Some(r.value.logLevel) == ParseLogLevel(a.logLevel, build)
    ensures r.Ok? ==> (r.value.command.Serve? <==> a.command.ServeCommand?)
    ensures r.Ok? && a.command.ServeCommand? ==>
              Ok(r.value.command.serve) == ParseServe(a.command.serve, fs, build)
    ensures r.Ok? && a.command.GenCsrCommand? ==>
              Ok(r.value.command.genCsr) == ParseGenCsr(a.command.genCsr, fs)
    ensures r.Err? <==> || ParseLogLevel(a.logLevel, build).None?
                        || (a.command.ServeCommand? && ParseServe(a.command.serve, fs, build).Err?)
                        || (a.command.GenCsrCommand? && ParseGenCsr(a.command.genCsr, fs).Err?)
    ensures r.Err? ==>
              || (r.error == InvalidLogLevel && ParseLogLevel(a.logLevel, build).None?)
              || (a.command.ServeCommand? && ParseServe(a.command.serve, fs, build) == Err(r.error))
              || (a.command.GenCsrCommand? && ParseGenCsr(a.command.genCsr, fs) == Err(r.error))
  {
    match ParseLogLevel(a.logLevel, build)
    case None => Err(InvalidLogLevel)
    case Some(level) =>
      match a.command
      case GenCsrCommand(g) =>
        (match ParseGenCsr(g, fs)
         case Ok(args) => Ok(Args(level, GenCsr(args)))
         case Err(e) => Err(e))
      case ServeCommand(s) =>
        (match ParseServe(s, fs, build)
         case Ok(args) => Ok(Args(level, Serve(args)))
         case Err(e) => Err(e))
  }
}

=== FILE: decimal.dfy ===
/** `usize::from_str`, the parser behind the `max_request_size_bytes`
    argument (encrypting-proxy/src/main.rs:153-154) and the build-time
    thread count (encrypting-proxy/src/main.rs:66). It works on the bytes of
    the string: an optional `+`, then decimal digits, with checked
    multiply-and-add. */
module Decimal {
  import opened Base

  const PLUS: byte := 0x2B
  const MINUS: byte := 0x2D

  /** `core::num::IntErrorKind` as far as an unsigned parse can report it. */
  datatype IntErrorKind = Empty | InvalidDigit | PosOverflow

  predicate IsDigit(c: byte)
  {
    0x30 <= c <= 0x39
  }

  predicate AllDigits(s: seq<byte>)
  {
    forall i :: 0 <= i < |s| ==> IsDigit(s[i])
  }

  /** The exact value of `acc` followed by the digits `ds`, read left to
      right; never smaller than `acc`. */
  function DigitsValue(ds: seq<byte>, acc: nat): (v: nat)
    requires AllDigits(ds)
    ensures v >= acc
    decreases |ds|
  {
    if ds == [] then acc else DigitsValue(ds[1..], acc * 10 + (ds[0] - 0x30))
  }

  /** The digit loop with `checked_mul` and `checked_add`: at each byte the
      digit is checked before the overflow of the multiplication is
      reported. */
  function Accumulate(ds: seq<byte>, acc: usize): (r: Result<usize, IntErrorKind>)
    ensures r.Ok? <==> AllDigits(ds) && DigitsValue(ds, acc) <= USIZE_MAX
    ensures r.Ok? ==> r.value == DigitsValue(ds, acc)
    ensures r.Err? ==> r.error != Empty
    ensures r.Err? && AllDigits(ds) ==> r.error == PosOverflow
    decreases |ds|
  {
    if ds == [] then Ok(acc)
    else if !IsDigit(ds[0]) then Err(InvalidDigit)
    else if acc * 10 > USIZE_MAX then
      assert AllDigits(ds) ==> DigitsValue(ds, acc) >= acc * 10;
      Err(PosOverflow)
    else if acc * 10 + (ds[0] - 0x30) > USIZE_MAX then Err(PosOverflow)
    else
      assert forall i :: 1 <= i < |ds| ==> ds[i] == ds[1..][i - 1];
      Accumulate(ds[1..], acc * 10 + (ds[0] - 0x30))
  }

  /** `<usize as FromStr>::from_str`. The empty string is `Empty`; a lone
      sign is `InvalidDigit`; one leading `+` is skipped; a `-` is a
      non-digit for an unsigned type. */
  function ParseUsize(src: seq<byte>): (r: Result<usize, IntErrorKind>)
    ensures r == Err(Empty) <==> src == []
    ensures var ds := if src != [] && src[0] == PLUS then src[1..] else src;
      && (r.Ok? <==> ds != [] && AllDigits(ds) && DigitsValue(ds, 0) <= USIZE_MAX)
      && (r.Ok? ==> r.value == DigitsValue(ds, 0))
  {
    if src == [] then Err(Empty)
    else if (src[0] == PLUS || src[0] == MINUS) && |src| == 1 then Err(InvalidDigit)
    else if src[0] == PLUS then Accumulate(src[1..], 0)
    else Accumulate(src, 0)
  }

  /* ---------------------------------------------------------------------
     Decimal spelling, the partner of the parser.
     --------------------------------------------------------------------- */

  /** The shortest decimal spelling of `n`. */
  function ToDecimal(n: nat): (s: seq<byte>)
    ensures s != [] && AllDigits(s)
  {
    if n < 10 then [0x30 + n] else ToDecimal(n / 10) + [0x30 + n % 10]
  }

  /** Appending one digit multiplies by ten and adds it. */
  lemma {:induction false} DigitsValueSnoc(ds: seq<byte>, d: byte, acc: nat)
    requires AllDigits(ds) && IsDigit(d)
    ensures AllDigits(ds + [d])
    ensures DigitsValue(ds + [d], acc) == DigitsValue(ds, acc) * 10 + (d - 0x30)
    decreases |ds|
  {
    if ds == [] {
      assert [] + [d] == [d];
    } else {
      assert (ds + [d])[1..] == ds[1..] + [d];
      DigitsValueSnoc(ds[1..], d, acc * 10 + (ds[0] - 0x30));
    }
  }

  lemma {:induction false} ToDecimalValue(n: nat)
    ensures DigitsValue(ToDecimal(n), 0) == n
  {
    if n >= 10 {
      ToDecimalValue(n / 10);
      DigitsValueSnoc(ToDecimal(n / 10), 0x30 + n % 10, 0);
    }
  }

  /** Round trip: every `usize` parses back from its decimal spelling. */
  lemma ParseToDecimal(n: usize)
    ensures ParseUsize(ToDecimal(n)) == Ok(n)
  {
    ToDecimalValue(n);
    var s := ToDecimal(n);
    assert IsDigit(s[0]);
  }

  /** A value beyond `usize::MAX` is an overflow, not a wrap-around. */
  lemma ParseOverflow(n: nat)
    requires n > USIZE_MAX
    ensures ParseUsize(ToDecimal(n)) == Err(PosOverflow)
  {
    ToDecimalValue(n);
    var s := ToDecimal(n);
    assert IsDigit(s[0]);
  }

  /** The digit loop stops at the first non-digit: if the digits before it
      do not overflow, the error is an invalid digit, whatever follows. */
  lemma {:induction false} AccumulateStopsAtNonDigit(ds: seq<byte>, rest: seq<byte>, acc: usize)
    requires AllDigits(ds) && DigitsValue(ds, acc) <= USIZE_MAX
    requires rest != [] && !IsDigit(rest[0])
    ensures Accumulate(ds + rest, acc) == Err(InvalidDigit)
    decreases |ds|
  {
    if ds == [] {
      assert ds + rest == rest;
    } else {
      var acc' := acc * 10 + (ds[0] - 0x30);
      assert DigitsValue(ds[1..], acc') == DigitsValue(ds, acc);
      assert DigitsValue(ds[1..], acc') >= acc';
      assert (ds + rest)[0] == ds[0];
      assert (ds + rest)[1..] == ds[1..] + rest;
      AccumulateStopsAtNonDigit(ds[1..], rest, acc');
    }
  }

  /** A decimal prefix that fits, followed by a non-digit, is rejected as an
      invalid digit, never as an overflow or as empty. */
  lemma ParseStopsAtNonDigit(ds: seq<byte>, rest: seq<byte>)
    requires ds != [] && AllDigits(ds) && DigitsValue(ds, 0) <= USIZE_MAX
    requires rest != [] && !IsDigit(rest[0])
    ensures ParseUsize(ds + rest) == Err(InvalidDigit)
  {
    assert (ds + rest)[0] == ds[0];
    AccumulateStopsAtNonDigit(ds, rest, 0);
  }

  /** One leading `+` is accepted. */
  lemma ParsePlus(n: usize)
    ensures ParseUsize([PLUS] + ToDecimal(n)) == Ok(n)
  {
    ToDecimalValue(n);
    assert ([PLUS] + ToDecimal(n))[1..] == ToDecimal(n);
  }
}

=== FILE: files.dfy ===
/** The file system as the launcher sees it: existence checks
    (`PathBuf::exists`), whole-file reads (`std::fs::read`,
    `std::fs::read_to_string`) and whole-file writes (`std::fs::write`).
    Operating-system behaviour is reduced to which paths exist, which of them
    can be read, and which cannot be written. */
module Files {
  import opened Base

  /** A path that exists can still fail to read (a directory, missing
      permissions, an I/O error). */
  datatype FileEntry = Readable(data: seq<byte>) | Unreadable

  datatype FileSystem = FileSystem(files: map<Path, FileEntry>, readOnly: set<Path>)

  /** `PathBuf::exists`. */
  predicate Exists(fs: FileSystem, p: Path)
  {
    p in fs.files
  }

  /** `read_file` (encrypting-proxy/src/main.rs:195-197): the contents, or
      an error that names the path. */
  function ReadFile(fs: FileSystem, p: Path): (r: Result<seq<byte>, AppError>)
    ensures r.Ok? <==> Exists(fs, p) && fs.files[p].Readable?
    ensures r.Ok? ==> r.value == fs.files[p].data
    ensures r.Err? ==> r.error == CouldNotRead(p)
  {
    if p in fs.files && fs.files[p].Readable? then Ok(fs.files[p].data)
    else Err(CouldNotRead(p))
  }

  /** `std::fs::read_to_string` with the context that `gen-csr` adds: like
      `ReadFile`, and it also fails when the bytes are not UTF-8 (the
      validity check is a parameter). */
  function ReadToString(fs: FileSystem, p: Path, isUtf8: seq<byte> -> bool): (r: Result<seq<byte>, AppError>)
    ensures r.Ok? <==> ReadFile(fs, p).Ok? && isUtf8(ReadFile(fs, p).value)
    ensures r.Ok? ==> r == ReadFile(fs, p)
    ensures r.Err? ==> r.error == CouldNotRead(p)
  {
    match ReadFile(fs, p)
    case Ok(data) => if isUtf8(data) then Ok(data) else Err(CouldNotRead(p))
    case Err(e) => Err(e)
  }

  /** `std::fs::write`: creates or truncates the file; the error names the
      path. */
  function Write(fs: FileSystem, p: Path, data: seq<byte>): (r: Result<FileSystem, AppError>)
    ensures r.Err? <==> p in fs.readOnly
    ensures r.Err? ==> r.error == FailedToWrite(p)
  {
    if p in fs.readOnly then Err(FailedToWrite(p))
    else Ok(fs.(files := fs.files[p := Readable(data)]))
  }

  /** A successful write is read back, overwriting what was there, and
      leaves every other path as it was. */
  lemma ReadAfterWrite(fs: FileSystem, p: Path, data: seq<byte>, q: Path)
    requires Write(fs, p, data).Ok?
    ensures ReadFile(Write(fs, p, data).value, p) == Ok(data)
    ensures q != p ==> ReadFile(Write(fs, p, data).value, q) == ReadFile(fs, q)
    ensures q != p ==> (Exists(Write(fs, p, data).value, q) <==> Exists(fs, q))
  {
  }
}

=== FILE: gencsr.dfy ===
/** The `gen-csr` arm of `main` in the default build
    (encrypting-proxy/src/main.rs:16-38): read the SEC1 PEM key as text,
    decode it, have the CSR collaborator sign a request for the subject, and
    write the PEM request to the output path. UTF-8 validation, the P-256
    key decoder and the CSR generator are external; they are parameters. */
module GenCsr {
  import opened Base
  import opened Files
  import Cli

  /** The sequence of steps, each failure carrying its own context. */
  function RunGenCsr<K>(
    a: Cli.GenCsrArgs,
    fs: FileSystem,
    isUtf8: seq<byte> -> bool,
    fromSec1Pem: seq<byte> -> Option<K>,
    generate: (K, string) -> Option<seq<byte>>): (r: Outcome<FileSystem>)
    ensures !r.Panicked?
    ensures r == Failed(CouldNotRead(a.tlsSecretKeyPath)) <==>
              ReadToString(fs, a.tlsSecretKeyPath, isUtf8).Err?
    ensures r == Failed(InvalidPrivateKey) <==>
              && ReadToString(fs, a.tlsSecretKeyPath, isUtf8).Ok?
              && fromSec1Pem(ReadToString(fs, a.tlsSecretKeyPath, isUtf8).value).None?
    ensures var pem := ReadToString(fs, a.tlsSecretKeyPath, isUtf8);
            pem.Ok? && fromSec1Pem(pem.value).Some? ==>
              var csr := generate(fromSec1Pem(pem.value).value, a.subject);
              && (csr.None? ==> r == Failed(CsrGenerationFailed))
              && (csr.Some? && a.csrPath in fs.readOnly ==> r == Failed(FailedToWrite(a.csrPath)))
              && (csr.Some? && a.csrPath !in fs.readOnly ==> r.Done?)
    ensures r.Done? ==>
              && ReadToString(fs, a.tlsSecretKeyPath, isUtf8).Ok?
              && var key := fromSec1Pem(ReadToString(fs, a.tlsSecretKeyPath, isUtf8).value);
              && key.Some?
              && generate(key.value, a.subject).Some?
              && Write(fs, a.csrPath, generate(key.value, a.subject).value) == Ok(r.value)
              && ReadFile(r.value, a.csrPath) == Ok(generate(key.value, a.subject).value)
  {
    match ReadToString(fs, a.tlsSecretKeyPath, isUtf8)
    case Err(e) => Failed(e)
    case Ok(pem) =>
      match fromSec1Pem(pem)
      case None => Failed(InvalidPrivateKey)
      case Some(key) =>
        match generate(key, a.subject)
        case None => Failed(CsrGenerationFailed)
        case Some(csr) =>
          match Write(fs, a.csrPath, csr)
          case Err(e) => Failed(e)
          case Ok(fs') =>
            ReadAfterWrite(fs, a.csrPath, csr, a.csrPath);
            Done(fs')
  }

  /** A key path that does not exist is a usage error at parse time, never
      an I/O error of `gen-csr`; a key file that exists but is not a key is
      an "invalid private key" error, never an I/O error. */
  lemma KeyErrorsAreDistinct<K>(
    a: Cli.GenCsrArgv,
    fs: FileSystem,
    isUtf8: seq<byte> -> bool,
    fromSec1Pem: seq<byte> -> Option<K>,
    generate: (K, string) -> Option<seq<byte>>)
    ensures a.tlsSecretKeyPath.Some? && a.subject.Some? && a.csrPath.Some? && !Exists(fs, a.tlsSecretKeyPath.value) ==>
              Cli.ParseGenCsr(a, fs) == Err(Cli.FileDoesNotExist(Cli.TlsSecretKeyPathArg))
    ensures Cli.ParseGenCsr(a, fs).Ok? &&
            ReadToString(fs, a.tlsSecretKeyPath.value, isUtf8).Ok? &&
            fromSec1Pem(ReadToString(fs, a.tlsSecretKeyPath.value, isUtf8).value).None? ==>
              RunGenCsr(Cli.ParseGenCsr(a, fs).value, fs, isUtf8, fromSec1Pem, generate) == Failed(InvalidPrivateKey)
  {
  }
}

=== FILE: hex.dfy ===
/** Fixed-width Base16 decoding of the runtime public key: `parse_byte_array`
    (encrypting-proxy/src/main.rs:173-178) on top of the `hex` crate's
    `decode_to_slice`. Base16 is the case-insensitive alphabet of section 8
    of RFC 4648. */
module Hex {
  import opened Base

  /** Width of the runtime public key, the `N` of `parse_byte_array`. */
  const KEY_LEN: nat := 32

  /** The prefix that `trim_start_matches("0x")` removes, repeatedly. */
  const PREFIX: seq<byte> := [0x30, 0x78]

  datatype HexError =
    | InvalidHexCharacter(c: byte, index: nat)
    | OddLength
    | InvalidStringLength

  /** Value of one Base16 digit, upper or lower case. */
  function DigitValue(c: byte): Option<nat>
  {
    if 0x30 <= c <= 0x39 then Some(c - 0x30)
    else if 0x41 <= c <= 0x46 then Some(c - 0x41 + 10)
    else if 0x61 <= c <= 0x66 then Some(c - 0x61 + 10)
    else None
  }

  predicate IsHexDigit(c: byte)
  {
    DigitValue(c).Some?
  }

  predicate AllHex(s: seq<byte>)
  {
    forall i :: 0 <= i < |s| ==> IsHexDigit(s[i])
  }

  /** The byte spelled by a high and a low digit. */
  function PairValue(hi: byte, lo: byte): byte
    requires IsHexDigit(hi) && IsHexDigit(lo)
  {
    DigitValue(hi).value * 16 + DigitValue(lo).value
  }

  predicate HasPrefix(s: seq<byte>)
  {
    |s| >= 2 && s[..2] == PREFIX
  }

  /** `k` copies of the prefix. */
  function Prefixes(k: nat): seq<byte>
  {
    if k == 0 then [] else PREFIX + Prefixes(k - 1)
  }

  /** `str::trim_start_matches("0x")`: removes every leading repetition of
      the prefix, and nothing else. */
  function StripHexPrefix(s: seq<byte>): (t: seq<byte>)
    ensures !HasPrefix(t)
    ensures |t| <= |s| && (|s| - |t|) % 2 == 0
    ensures s == Prefixes((|s| - |t|) / 2) + t
    decreases |s|
  {
    if HasPrefix(s) then
      var t := StripHexPrefix(s[2..]);
      assert s == PREFIX + s[2..];
      t
    else
      s
  }

  /** The pair loop of `decode_to_slice`: byte `i` comes from digits `2i`
      (high) and `2i + 1` (low); the high digit is checked first, and the
      first bad byte is reported with its index (`base` is the index of
      `data[0]` in the whole input). */
  function DecodePairs(data: seq<byte>, base: nat): (r: Result<seq<byte>, HexError>)
    requires |data| % 2 == 0
    ensures r.Ok? <==> AllHex(data)
    ensures r.Ok? ==> |r.value| == |data| / 2
    ensures r.Ok? ==> forall i :: 0 <= i < |r.value| ==>
                        r.value[i] == PairValue(data[2 * i], data[2 * i + 1])
    ensures r.Err? ==> FirstBadDigit(data, base, r.error)
    decreases |data|
  {
    if data == [] then Ok([])
    else if !IsHexDigit(data[0]) then Err(InvalidHexCharacter(data[0], base))
    else if !IsHexDigit(data[1]) then Err(InvalidHexCharacter(data[1], base + 1))
    else
      match DecodePairs(data[2..], base + 2)
      case Ok(rest) =>
        DecodedTail(data, rest);
        Ok([PairValue(data[0], data[1])] + rest)
      case Err(e) =>
        BadDigitInTail(data, base, e);
        Err(e)
  }

  /** A decoded tail extends by the leading pair. */
  lemma DecodedTail(data: seq<byte>, rest: seq<byte>)
    requires |data| >= 2 && |data| % 2 == 0
    requires IsHexDigit(data[0]) && IsHexDigit(data[1]) && AllHex(data[2..])
    requires |rest| == |data| / 2 - 1
    requires forall i :: 0 <= i < |rest| ==> rest[i] == PairValue(data[2..][2 * i], data[2..][2 * i + 1])
    ensures AllHex(data)
    ensures forall i :: 0 <= i < |data| / 2 ==>
              ([PairValue(data[0], data[1])] + rest)[i] == PairValue(data[2 * i], data[2 * i + 1])
  {
    forall j | 2 <= j < |data|
      ensures IsHexDigit(data[j])
    {
      assert data[j] == data[2..][j - 2];
    }
    forall i | 1 <= i < |data| / 2
      ensures ([PairValue(data[0], data[1])] + rest)[i] == PairValue(data[2 * i], data[2 * i + 1])
    {
      assert ([PairValue(data[0], data[1])] + rest)[i] == rest[i - 1];
      assert data[2..][2 * (i - 1)] == data[2 * i];
      assert data[2..][2 * (i - 1) + 1] == data[2 * i + 1];
    }
  }

  /** The first bad digit of the tail is the first bad digit of the whole,
      when the leading pair is good. */
  lemma BadDigitInTail(data: seq<byte>, base: nat, e: HexError)
    requires |data| >= 2
    requires IsHexDigit(data[0]) && IsHexDigit(data[1])
    requires FirstBadDigit(data[2..], base + 2, e)
    ensures FirstBadDigit(data, base, e)
    ensures !AllHex(data)
  {
    var k := e.index - base;
    assert data[k] == data[2..][k - 2];
    assert !IsHexDigit(data[k]);
    forall j | 0 <= j < k
      ensures IsHexDigit(data[..k][j])
    {
      if j >= 2 {
        assert data[..k][j] == data[2..][..k - 2][j - 2];
      }
    }
  }

  /** `e` reports the first non-digit of `data`, whose first byte sits at
      index `base` of the whole input. */
  ghost predicate FirstBadDigit(data: seq<byte>, base: nat, e: HexError)
  {
    && e.InvalidHexCharacter?
    && base <= e.index < base + |data|
    && e.c == data[e.index - base]
    && !IsHexDigit(e.c)
    && AllHex(data[..e.index - base])
  }

  /** `hex::decode_to_slice(data, out)` with `|out| == outLen`: the length
      checks come before any digit is looked at. */
  function DecodeToSlice(data: seq<byte>, outLen: nat): (r: Result<seq<byte>, HexError>)
    ensures r == Err(OddLength) <==> |data| % 2 == 1
    ensures r == Err(InvalidStringLength) <==> |data| % 2 == 0 && |data| != 2 * outLen
    ensures r.Ok? <==> |data| == 2 * outLen && AllHex(data)
    ensures r.Ok? ==> |r.value| == outLen
    ensures r.Ok? ==> forall i :: 0 <= i < outLen ==>
                        r.value[i] == PairValue(data[2 * i], data[2 * i + 1])
    ensures r.Err? && r.error.InvalidHexCharacter? ==>
              |data| == 2 * outLen && FirstBadDigit(data, 0, r.error)
  {
    if |data| % 2 != 0 then Err(OddLength)
    else if |data| / 2 != outLen then Err(InvalidStringLength)
    else DecodePairs(data, 0)
  }

  /** `parse_byte_array::<32>` (encrypting-proxy/src/main.rs:173-178). On
      success the key has exactly 32 bytes; any other stripped length and
      any non-digit is an error, never a partially filled key. */
  function ParseByteArray(input: seq<byte>): (r: Result<seq<byte>, HexError>)
    ensures var t := StripHexPrefix(input);
      && (r == Err(OddLength) <==> |t| % 2 == 1)
      && (r == Err(InvalidStringLength) <==> |t| % 2 == 0 && |t| != 2 * KEY_LEN)
      && (r.Ok? <==> |t| == 2 * KEY_LEN && AllHex(t))
      && (r.Ok? ==> |r.value| == KEY_LEN)
      && (r.Ok? ==> forall i :: 0 <= i < KEY_LEN ==>
                      r.value[i] == PairValue(t[2 * i], t[2 * i + 1]))
      && (r.Err? && r.error.InvalidHexCharacter? ==>
            |t| == 2 * KEY_LEN && FirstBadDigit(t, 0, r.error))
  {
    DecodeToSlice(StripHexPrefix(input), KEY_LEN)
  }

  /* ---------------------------------------------------------------------
     Encoding, the partner of the decoder.
     --------------------------------------------------------------------- */

  /** The digit spelling a nibble, in the requested case. */
  function DigitChar(v: nat, upper: bool): (c: byte)
    requires v < 16
  {
    if v < 10 then 0x30 + v
    else if upper then 0x41 + (v - 10)
    else 0x61 + (v - 10)
  }

  /** Base16 encoding: two digits per byte, high nibble first. */
  function Encode(b: seq<byte>, upper: bool): (s: seq<byte>)
    ensures |s| == 2 * |b|
  {
    if b == [] then []
    else [DigitChar(b[0] / 16, upper), DigitChar(b[0] % 16, upper)] + Encode(b[1..], upper)
  }

  /** `s` and `u` spell the same digits, letter case aside. */
  ghost predicate SameDigits(s: seq<byte>, u: seq<byte>)
  {
    |s| == |u| && forall j :: 0 <= j < |s| ==> DigitValue(s[j]) == DigitValue(u[j])
  }

  lemma DigitCharValue(v: nat, upper: bool)
    requires v < 16
    ensures DigitValue(DigitChar(v, upper)) == Some(v)
  {
  }

  /** The two digits of byte `i` of an encoding carry its two nibbles. */
  lemma EncodeAt(b: seq<byte>, upper: bool, i: nat)
    requires i < |b|
    ensures DigitValue(Encode(b, upper)[2 * i]) == Some(b[i] / 16)
    ensures DigitValue(Encode(b, upper)[2 * i + 1]) == Some(b[i] % 16)
  {
    if i == 0 {
      DigitCharValue(b[0] / 16, upper);
      DigitCharValue(b[0] % 16, upper);
    } else {
      EncodeAt(b[1..], upper, i - 1);
      assert Encode(b, upper)[2 * i] == Encode(b[1..], upper)[2 * (i - 1)];
      assert Encode(b, upper)[2 * i + 1] == Encode(b[1..], upper)[2 * (i - 1) + 1];
    }
  }

  /** Every byte of an encoding is a Base16 digit. */
  lemma {:induction false} EncodeAllHex(b: seq<byte>, upper: bool)
    ensures AllHex(Encode(b, upper))
  {
    var s := Encode(b, upper);
    forall j | 0 <= j < |s|
      ensures IsHexDigit(s[j])
    {
      EncodeAt(b, upper, j / 2);
      assert j == 2 * (j / 2) || j == 2 * (j / 2) + 1;
    }
  }

  /** The digits of a pair carry the nibbles of the byte they spell. */
  lemma NibblesOfPair(hi: byte, lo: byte)
    requires IsHexDigit(hi) && IsHexDigit(lo)
    ensures DigitValue(hi) == Some(PairValue(hi, lo) / 16)
    ensures DigitValue(lo) == Some(PairValue(hi, lo) % 16)
  {
  }

  /** Two digits carrying the nibbles of `x` spell `x`. */
  lemma PairOfNibbles(x: byte, hi: byte, lo: byte)
    requires DigitValue(hi) == Some(x / 16) && DigitValue(lo) == Some(x % 16)
    ensures PairValue(hi, lo) == x
  {
  }

  /** An encoding never starts with the prefix: its second byte is a digit,
      and `x` is not one. */
  lemma EncodeHasNoPrefix(b: seq<byte>, upper: bool)
    ensures StripHexPrefix(Encode(b, upper)) == Encode(b, upper)
  {
    EncodeAllHex(b, upper);
    var s := Encode(b, upper);
    if |s| >= 2 {
      assert IsHexDigit(s[1]);
      assert s[..2][1] == s[1];
    }
  }

  /** Prepending any number of prefixes does not change what is parsed. */
  lemma {:induction false} StripPrefixes(k: nat, h: seq<byte>)
    ensures StripHexPrefix(Prefixes(k) + h) == StripHexPrefix(h)
  {
    if k == 0 {
      assert Prefixes(k) + h == h;
    } else {
      var s := Prefixes(k) + h;
      assert s == PREFIX + (Prefixes(k - 1) + h);
      assert s[..2] == PREFIX;
      assert s[2..] == Prefixes(k - 1) + h;
      assert HasPrefix(s);
      StripPrefixes(k - 1, h);
    }
  }

  /** `"0x" + h`, `"0x0x" + h`, ... and `h` all parse to the same result
      (encrypting-proxy/src/main.rs:174). */
  lemma {:induction false} PrefixesIgnored(k: nat, h: seq<byte>)
    ensures ParseByteArray(Prefixes(k) + h) == ParseByteArray(h)
  {
    StripPrefixes(k, h);
  }

  /** Decoding an encoding of any width gives back the bytes. */
  lemma DecodeEncoded(b: seq<byte>, upper: bool)
    ensures DecodeToSlice(Encode(b, upper), |b|) == Ok(b)
  {
    var s := Encode(b, upper);
    EncodeAllHex(b, upper);
    var r := DecodeToSlice(s, |b|);
    assert r.Ok?;
    forall i | 0 <= i < |b|
      ensures r.value[i] == b[i]
    {
      EncodeAt(b, upper, i);
      PairOfNibbles(b[i], s[2 * i], s[2 * i + 1]);
    }
    assert r.value == b;
  }

  /** Round trip: any 32-byte key, spelled in either case and behind any
      number of prefixes, parses back to itself. */
  lemma {:induction false} RoundTrip(b: seq<byte>, upper: bool, k: nat)
    requires |b| == KEY_LEN
    ensures ParseByteArray(Prefixes(k) + Encode(b, upper)) == Ok(b)
  {
    var s := Encode(b, upper);
    PrefixesIgnored(k, s);
    EncodeHasNoPrefix(b, upper);
    DecodeEncoded(b, upper);
  }

  /** Completeness of the decoder: an input parses to `key` exactly when,
      once stripped, it spells the encoding of `key` up to letter case.
      So two inputs parse to the same key iff they spell the same digits. */
  lemma ParsedIffSpelled(input: seq<byte>, key: seq<byte>)
    requires |key| == KEY_LEN
    ensures ParseByteArray(input) == Ok(key) <==>
              (AllHex(StripHexPrefix(input)) && SameDigits(StripHexPrefix(input), Encode(key, false)))
  {
    var t := StripHexPrefix(input);
    var e := Encode(key, false);
    var r := ParseByteArray(input);
    if r == Ok(key) {
      forall j | 0 <= j < |t|
        ensures DigitValue(t[j]) == DigitValue(e[j])
      {
        var i := j / 2;
        EncodeAt(key, false, i);
        NibblesOfPair(t[2 * i], t[2 * i + 1]);
        if j % 2 == 0 {
          assert j == 2 * i;
        } else {
          assert j == 2 * i + 1;
        }
      }
    }
    if AllHex(t) && SameDigits(t, e) {
      assert r.Ok?;
      forall i | 0 <= i < KEY_LEN
        ensures r.value[i] == key[i]
      {
        EncodeAt(key, false, i);
        assert DigitValue(t[2 * i]) == DigitValue(e[2 * i]);
        assert DigitValue(t[2 * i + 1]) == DigitValue(e[2 * i + 1]);
        PairOfNibbles(key[i], t[2 * i], t[2 * i + 1]);
      }
      assert r.value == key;
    }
  }

  /** A 63-digit key is rejected for its length before any digit is looked
      at. */
  lemma OddKeyRejected(input: seq<byte>)
    requires AllHex(input) && |input| == 2 * KEY_LEN - 1
    ensures ParseByteArray(input) == Err(OddLength)
  {
  }
}

=== FILE: launcher.dfy ===
/** `main` as a whole (encrypting-proxy/src/main.rs:10-77): parse the
    command line, initialise logging, then run one subcommand. A run is
    described by how it ends, the logging it installed and the file system
    it leaves behind. */
module Launcher {
  import opened Base
  import opened Files
  import opened Logging
  import Cli
  import Hex
  import Serve
  import GenCsr

  datatype Ending =
    | UsageRejected(usage: Cli.UsageError)    // clap exits before `main`'s body
    | ReturnedOk                              // `gen-csr` wrote its request
    | ReturnedErr(error: AppError)            // `main` returned an error
    | Aborted(reason: Panic)                  // the process panicked
    | ServingForever(serving: Serve.Serving)  // `serve` never returns

  datatype Run = Run(logging: Subscriber, fs: FileSystem, ending: Ending)

  /** The environment a run depends on beyond the command line: the build,
      the build-time thread count text, and the external collaborators. */
  datatype Environment<!K> = Environment(
    build: Build,
    threads: seq<byte>,
    starts: Serve.ServerConfig -> bool,
    isUtf8: seq<byte> -> bool,
    fromSec1Pem: seq<byte> -> Option<K>,
    generate: (K, string) -> Option<seq<byte>>)

  /** How a subcommand's outcome ends the run: `ok` says how success ends
      it, an error is returned from `main`, and a panic aborts. */
  function EndingOf<T>(o: Outcome<T>, ok: T -> Ending): Ending
  {
    match o
    case Done(v) => ok(v)
    case Failed(e) => ReturnedErr(e)
    case Panicked(p) => Aborted(p)
  }

  /** One run of the launcher. Parsing happens before logging is set up, so
      a rejected command line installs nothing and touches no file; logging
      is set up before either subcommand runs. Only `gen-csr` writes a file. */
  function Process<K>(argv: Cli.Argv, fs: FileSystem, env: Environment<K>): (r: Run)
    ensures r.ending.UsageRejected? <==> Cli.ParseArgs(argv, fs, env.build).Err?
    ensures r.ending.UsageRejected? ==> r.logging == NotInstalled && r.fs == fs
    ensures r.ending.UsageRejected? ==> Cli.ParseArgs(argv, fs, env.build) == Err(r.ending.usage)
    ensures !r.ending.ReturnedOk? ==> r.fs == fs
    ensures r.ending.ServingForever? ==> argv.command.ServeCommand?
    ensures r.ending.ReturnedOk? ==> argv.command.GenCsrCommand?
    ensures Cli.ParseArgs(argv, fs, env.build).Ok? ==>
              Ok(r.logging) == InitTracing(Cli.ParseArgs(argv, fs, env.build).value.logLevel, env.build.debugAssertions, false)
    ensures var p := Cli.ParseArgs(argv, fs, env.build);
            p.Ok? && p.value.command.Serve? ==>
              r.ending == EndingOf(Serve.RunServe(p.value.command.serve, fs, env.build, env.threads, env.starts),
                                   s => ServingForever(s))
    ensures var p := Cli.ParseArgs(argv, fs, env.build);
            p.Ok? && p.value.command.GenCsr? ==>
              var g := GenCsr.RunGenCsr(p.value.command.genCsr, fs, env.isUtf8, env.fromSec1Pem, env.generate);
              r.ending == EndingOf(g, _ => ReturnedOk) && (g.Done? ==> r.fs == g.value)
  {
    match Cli.ParseArgs(argv, fs, env.build)
    case Err(e) => Run(NotInstalled, fs, UsageRejected(e))
    case Ok(args) =>
      match InitTracing(args.logLevel, env.build.debugAssertions, false)
      case Err(p) => Run(NotInstalled, fs, Aborted(p))
      case Ok(logging) =>
        match args.command
        case GenCsr(g) =>
          (match GenCsr.RunGenCsr(g, fs, env.isUtf8, env.fromSec1Pem, env.generate)
           case Done(fs') => Run(logging, fs', ReturnedOk)
           case Failed(e) => Run(logging, fs, ReturnedErr(e))
           case Panicked(p) => Run(logging, fs, Aborted(p)))
        case Serve(s) =>
          (match Serve.RunServe(s, fs, env.build, env.threads, env.starts)
           case Done(serving) => Run(logging, fs, ServingForever(serving))
           case Failed(e) => Run(logging, fs, ReturnedErr(e))
           case Panicked(p) => Run(logging, fs, Aborted(p)))
  }

  /** A key that is not 64 digits once stripped ends the run at parse time,
      whatever the server constructor would have done: no socket is bound,
      no file is read, no logging is installed. */
  lemma MalformedKeyRejectedBeforeBinding<K>(argv: Cli.Argv, fs: FileSystem, env: Environment<K>, starts': Serve.ServerConfig -> bool)
    requires argv.command.ServeCommand?
    requires argv.command.serve.runtimePublicKey.Some?
    requires |Hex.StripHexPrefix(argv.command.serve.runtimePublicKey.value)| != 2 * Hex.KEY_LEN
    ensures Process(argv, fs, env).ending.UsageRejected?
    ensures Process(argv, fs, env).logging == NotInstalled
    ensures Process(argv, fs, env) == Process(argv, fs, env.(starts := starts'))
  {
  }

  /** A certificate path without a key path is accepted by the parser and
      then, once the certificate has been read, panics at the `unwrap` of
      the missing key path (encrypting-proxy/src/main.rs:58, 167). */
  lemma CertWithoutKeyPanics<K>(argv: Cli.Argv, fs: FileSystem, env: Environment<K>)
    requires !env.build.sgx
    requires Cli.ParseArgs(argv, fs, env.build).Ok?
    requires argv.command.ServeCommand?
    requires argv.command.serve.tlsCertPath.Some? && argv.command.serve.tlsSecretKeyPath.None?
    requires ReadFile(fs, argv.command.serve.tlsCertPath.value).Ok?
    ensures Process(argv, fs, env).ending == Aborted(UnwrapOnNone)
  {
  }

  /** With `--log-level off` nothing is installed, so no event is ever
      recorded, whichever way the run ends. */
  lemma OffRecordsNothing<K>(argv: Cli.Argv, fs: FileSystem, env: Environment<K>, e: Level)
    requires argv.logLevel == Some("off")
    ensures !Enabled(Process(argv, fs, env).logging, e)
  {
  }
}

=== FILE: logging.dfy ===
/** The `--log-level` argument and `init_tracing`
    (encrypting-proxy/src/main.rs:79-98, 100-119): a total mapping from the
    command-line level to a `tracing` maximum level, where `off` installs
    nothing at all. */
module Logging {
  import opened Base

  /** The command-line enum `LogLevel`. */
  datatype LogLevel = Off | Error | Warn | Info | Debug | Trace

  /** `tracing::Level`; `tracing` orders levels by verbosity, `ERROR` being
      the least and `TRACE` the most verbose. */
  datatype Level = ERROR | WARN | INFO | DEBUG | TRACE

  function Verbosity(l: Level): nat
  {
    match l
    case ERROR => 1
    case WARN => 2
    case INFO => 3
    case DEBUG => 4
    case TRACE => 5
  }

  /** Position of a command-line level, `off` first. */
  function Rank(l: LogLevel): nat
  {
    match l
    case Off => 0
    case Error => 1
    case Warn => 2
    case Info => 3
    case Debug => 4
    case Trace => 5
  }

  /** The two output formats, chosen by the build profile, not by a flag:
      JSON without colours in release builds, compact pretty-printing in
      debug builds. */
  datatype Format = Json | Compact

  /** The process-wide subscriber. */
  datatype Subscriber = NotInstalled | Installed(maxLevel: Level, format: Format)

  /** The `match` of `init_tracing` (encrypting-proxy/src/main.rs:80-87):
      `Off` returns before any initialisation, every other level names the
      `tracing` level of the same name. */
  function MaxLevel(l: LogLevel): (r: Option<Level>)
    ensures r.None? <==> l == Off
    ensures r.Some? ==> Verbosity(r.value) == Rank(l)
  {
    match l
    case Off => None
    case Error => Some(ERROR)
    case Warn => Some(WARN)
    case Info => Some(INFO)
    case Debug => Some(DEBUG)
    case Trace => Some(TRACE)
  }

  /** `init_tracing`. A release build installs with `init()`, which panics
      if a global subscriber is already installed; a debug build uses
      `try_init().ok()` and carries on without one. `alreadyInstalled` is
      that pre-existing global state. */
  function InitTracing(l: LogLevel, debugAssertions: bool, alreadyInstalled: bool): (r: Result<Subscriber, Panic>)
    ensures l == Off ==> r == Ok(NotInstalled)
    ensures r.Err? <==> l != Off && !debugAssertions && alreadyInstalled
    ensures r.Err? ==> r.error == SubscriberInstallFailed
    ensures l != Off && !alreadyInstalled ==> r.Ok? && r.value.Installed?
    ensures l != Off && debugAssertions && alreadyInstalled ==> r == Ok(NotInstalled)
    ensures r.Ok? && r.value.Installed? ==>
              && Some(r.value.maxLevel) == MaxLevel(l)
              && (r.value.format == Json <==> !debugAssertions)
  {
    match MaxLevel(l)
    case None => Ok(NotInstalled)
    case Some(max) =>
      if !debugAssertions then
        if alreadyInstalled then Err(SubscriberInstallFailed) else Ok(Installed(max, Json))
      else if alreadyInstalled then Ok(NotInstalled)
      else Ok(Installed(max, Compact))
  }

  /** Whether an event of level `e` is recorded. */
  predicate Enabled(s: Subscriber, e: Level)
  {
    s.Installed? && Verbosity(e) <= Verbosity(s.maxLevel)
  }

  /** What a level records at start-up: `off` records nothing, and every
      other level records exactly the events no more verbose than itself. */
  lemma RecordedEvents(l: LogLevel, debugAssertions: bool, e: Level)
    requires InitTracing(l, debugAssertions, false).Ok?
    ensures Enabled(InitTracing(l, debugAssertions, false).value, e) <==> 1 <= Verbosity(e) <= Rank(l)
  {
  }

  /** The level mapping is injective. */
  lemma MaxLevelInjective(a: LogLevel, b: LogLevel)
    requires MaxLevel(a) == MaxLevel(b)
    ensures a == b
  {
    if a != Off {
      assert Rank(a) == Verbosity(MaxLevel(a).value) == Rank(b);
    }
  }

  /** The level mapping preserves order: a more verbose command-line level
      records a superset of the events. */
  lemma MaxLevelMonotone(a: LogLevel, b: LogLevel, e: Level)
    requires Rank(a) <= Rank(b)
    requires Enabled(InitTracing(a, false, false).value, e)
    ensures Enabled(InitTracing(b, false, false).value, e)
  {
  }

  /* ---------------------------------------------------------------------
     The `--log-level` argument.
     --------------------------------------------------------------------- */

  /** `Debug` and `Trace` exist only outside SGX release builds
      (encrypting-proxy/src/main.rs:115-118). */
  predicate Available(l: LogLevel, build: Build)
  {
    (l == Debug || l == Trace) ==> !build.sgx || build.debugAssertions
  }

  /** The possible value clap accepts for a level. */
  function Name(l: LogLevel): string
  {
    match l
    case Off => "off"
    case Error => "error"
    case Warn => "warn"
    case Info => "info"
    case Debug => "debug"
    case Trace => "trace"
  }

  /** Every level, in declaration order. */
  const LEVELS: seq<LogLevel> := [Off, Error, Warn, Info, Debug, Trace]

  /** The first level of `ls` available in the build whose name is `s`. */
  function FindLevel(s: string, ls: seq<LogLevel>, build: Build): (r: Option<LogLevel>)
    ensures r.Some? ==> r.value in ls && Name(r.value) == s && Available(r.value, build)
    ensures r.None? ==> forall i :: 0 <= i < |ls| ==> !(Name(ls[i]) == s && Available(ls[i], build))
  {
    if ls == [] then None
    else if Name(ls[0]) == s && Available(ls[0], build) then Some(ls[0])
    else FindLevel(s, ls[1..], build)
  }

  /** Parses `--log-level`: absent means `info`; otherwise the argument
      must be, case-sensitively, the name of a level of this build. */
  function ParseLogLevel(arg: Option<string>, build: Build): (r: Option<LogLevel>)
    ensures arg.None? ==> r == Some(Info)
    ensures r.Some? ==> Available(r.value, build)
    ensures r.Some? && arg.Some? ==> Name(r.value) == arg.value
    ensures r.None? ==> arg.Some? && forall l: LogLevel :: Available(l, build) ==> Name(l) != arg.value
  {
    match arg
    case None => Some(Info)
    case Some(s) =>
      var r := FindLevel(s, LEVELS, build);
      if r.Some? then r
      else
        assert forall l: LogLevel | Available(l, build) :: Name(l) != s by {
          forall l: LogLevel | Available(l, build)
            ensures Name(l) != s
          {
            assert LEVELS[LevelIndex(l)] == l;
          }
        }
        r
  }

  /** Where a level sits in `LEVELS`. */
  function LevelIndex(l: LogLevel): (i: nat)
    ensures i < |LEVELS| && LEVELS[i] == l
  {
    match l
    case Off => 0
    case Error => 1
    case Warn => 2
    case Info => 3
    case Debug => 4
    case Trace => 5
  }

  /** Every level of the build is accepted by its name. */
  lemma ParseName(l: LogLevel, build: Build)
    requires Available(l, build)
    ensures ParseLogLevel(Some(Name(l)), build) == Some(l)
  {
  }
}

=== FILE: serve.dfy ===
/** The `serve` arm of `main` (encrypting-proxy/src/main.rs:39-75): TLS
    material is assembled from the parsed paths, one server is constructed
    from the configuration, and the build-time thread count decides how
    many extra threads run the same server's serve loop beside the main
    thread. The server itself is an external collaborator: its constructor
    is a parameter that says whether construction succeeds, and a serve
    loop is represented by the handle it runs on. */
module Serve {
  import opened Base
  import opened Decimal
  import opened Files
  import Cli

  /** `sep::server::TlsConfig`. */
  datatype TlsConfig = TlsConfig(certificate: seq<byte>, secretKey: seq<byte>)

  /** `sep::server::Config`. */
  datatype ServerConfig = ServerConfig(
    listenAddr: string,
    upstream: string,
    maxRequestSizeBytes: usize,
    runtimePublicKey: seq<byte>,
    tls: Option<TlsConfig>)

  /** The configuration `main` builds from the parsed arguments and the TLS
      material (encrypting-proxy/src/main.rs:48-64). */
  function ConfigOf(a: Cli.ServeArgs, tls: Option<TlsConfig>): ServerConfig
  {
    ServerConfig(a.listenAddr, a.web3GatewayUrl, a.maxRequestSizeBytes, a.runtimePublicKey, tls)
  }

  /** A handle on the one constructed server; `server.clone()` gives a
      handle on the same server, so clones are equal. */
  datatype ServerHandle = ServerHandle(config: ServerConfig)

  /** The `tls` field (encrypting-proxy/src/main.rs:53-63): `Option::map`
      over the certificate path, then `transpose`. The certificate is read
      first; then, outside SGX, the key path is unwrapped and read; under
      SGX the key is `todo!()`. */
  function AssembleTls(certPath: Option<Path>, keyPath: Option<Path>, fs: FileSystem, sgx: bool): (r: Outcome<Option<TlsConfig>>)
    ensures r.Done? && r.value.Some? ==>
              && certPath.Some? && keyPath.Some? && !sgx
              && ReadFile(fs, certPath.value) == Ok(r.value.value.certificate)
              && ReadFile(fs, keyPath.value) == Ok(r.value.value.secretKey)
    ensures r == Done(None) <==> certPath.None?
    ensures certPath.Some? && keyPath.Some? && !sgx &&
            ReadFile(fs, certPath.value).Ok? && ReadFile(fs, keyPath.value).Ok? ==>
              r == Done(Some(TlsConfig(ReadFile(fs, certPath.value).value, ReadFile(fs, keyPath.value).value)))
    ensures certPath.Some? && ReadFile(fs, certPath.value).Err? ==> r == Failed(CouldNotRead(certPath.value))
    ensures certPath.Some? && ReadFile(fs, certPath.value).Ok? && !sgx && keyPath.Some? && ReadFile(fs, keyPath.value).Err? ==>
              r == Failed(CouldNotRead(keyPath.value))
    ensures r.Failed? ==> || (certPath.Some? && r.error == CouldNotRead(certPath.value))
                          || (keyPath.Some? && r.error == CouldNotRead(keyPath.value))
    ensures r == Panicked(UnwrapOnNone) <==>
              certPath.Some? && ReadFile(fs, certPath.value).Ok? && !sgx && keyPath.None?
    ensures r == Panicked(NotYetImplemented) <==>
              certPath.Some? && ReadFile(fs, certPath.value).Ok? && sgx
  {
    match certPath
    case None => Done(None)
    case Some(p) =>
      match ReadFile(fs, p)
      case Err(e) => Failed(e)
      case Ok(certificate) =>
        if sgx then Panicked(NotYetImplemented)
        else if keyPath.None? then Panicked(UnwrapOnNone)
        else
          match ReadFile(fs, keyPath.value)
          case Err(e) => Failed(e)
          case Ok(secretKey) => Done(Some(TlsConfig(certificate, secretKey)))
  }

  /** Both readable files give TLS material made of exactly their contents,
      in the right fields. */
  lemma TlsFromBothFiles(cert: Path, key: Path, fs: FileSystem)
    requires ReadFile(fs, cert).Ok? && ReadFile(fs, key).Ok?
    ensures AssembleTls(Some(cert), Some(key), fs, false)
              == Done(Some(TlsConfig(ReadFile(fs, cert).value, ReadFile(fs, key).value)))
  {
  }

  /** Under the corrected rules, a command that passes parsing never
      reaches the `unwrap` of a missing key path. */
  lemma CorrectedParseNeverUnwrapsNone(a: Cli.ServeArgv, fs: FileSystem, build: Build)
    requires !build.sgx
    requires Cli.ParseServeCorrected(a, fs, build).Ok?
    ensures var cmd := Cli.ParseServeCorrected(a, fs, build).value;
              AssembleTls(cmd.tlsCertPath, cmd.tlsSecretKeyPath, fs, build.sgx) != Panicked(UnwrapOnNone)
  {
  }

  /** `num_extra_threads` (encrypting-proxy/src/main.rs:68): the main
      thread serves too, so one fewer thread is spawned. `n == 1` is a
      special case, but `n == 0` is not guarded: `n - 1` panics under
      overflow checks and wraps to `usize::MAX` without them. */
  function NumExtraThreads(n: usize, overflowChecks: bool): (r: Option<usize>)
    ensures n >= 1 ==> r == Some(n - 1)
    ensures n == 0 ==> (r.None? <==> overflowChecks)
    ensures n == 0 && !overflowChecks ==> r == Some(USIZE_MAX)
  {
    if n == 1 then Some(0)
    else if n == 0 then (if overflowChecks then None else Some(USIZE_MAX))
    else Some(n - 1)
  }

  /** The spawning loop (encrypting-proxy/src/main.rs:69-72) followed by
      the main thread's own `server.serve()` (encrypting-proxy/src/main.rs:74):
      the serve loops that run, in the order they start, each on a clone of
      the one server. */
  method LaunchServeLoops(server: ServerHandle, extra: usize) returns (loops: seq<ServerHandle>)
    ensures |loops| == extra + 1
    ensures forall i :: 0 <= i < |loops| ==> loops[i] == server
  {
    loops := [];
    var spawned := 0;
    while spawned < extra
      invariant spawned <= extra
      invariant |loops| == spawned
      invariant forall i :: 0 <= i < |loops| ==> loops[i] == server
    {
      loops := loops + [server];
      spawned := spawned + 1;
    }
    loops := loops + [server];
  }

  /** For a build-time count n >= 1 there are exactly n serve loops on the
      one server, n - 1 of them spawned; n == 1 spawns none. */
  method FanOut(server: ServerHandle, n: usize) returns (spawned: usize, loops: seq<ServerHandle>)
    requires n >= 1
    ensures spawned == n - 1
    ensures |loops| == n
    ensures forall i :: 0 <= i < |loops| ==> loops[i] == server
  {
    var extra := NumExtraThreads(n, true);
    spawned := extra.value;
    loops := LaunchServeLoops(server, spawned);
  }

  /** How the `serve` arm ends when nothing fails: the main thread and
      `spawned` others serve on `server` forever. */
  datatype Serving = Serving(server: ServerHandle, spawned: usize)

  /** The `serve` arm. `starts` is the external constructor
      `sep::Server::new` (true when it succeeds); `threads` is the text of
      `SAPPHIRE_PROXY_NUM_THREADS` fixed at build time. Construction failure
      is a panic, not an error; so are an unparsable thread count and an
      underflowing one. */
  function RunServe(a: Cli.ServeArgs, fs: FileSystem, build: Build, threads: seq<byte>, starts: ServerConfig -> bool): (r: Outcome<Serving>)
    ensures r.Done? ==>
              && r.value.server.config.listenAddr == a.listenAddr
              && r.value.server.config.upstream == a.web3GatewayUrl
              && r.value.server.config.maxRequestSizeBytes == a.maxRequestSizeBytes
              && r.value.server.config.runtimePublicKey == a.runtimePublicKey
              && Done(r.value.server.config.tls) == AssembleTls(a.tlsCertPath, a.tlsSecretKeyPath, fs, build.sgx)
              && starts(r.value.server.config)
              && ParseUsize(threads).Ok?
    ensures r.Done? && ParseUsize(threads).value >= 1 ==> r.value.spawned == ParseUsize(threads).value - 1
    ensures r.Done? && ParseUsize(threads).value == 0 ==> !build.debugAssertions && r.value.spawned == USIZE_MAX
    ensures r.Failed? <==> AssembleTls(a.tlsCertPath, a.tlsSecretKeyPath, fs, build.sgx).Failed?
    ensures var tls := AssembleTls(a.tlsCertPath, a.tlsSecretKeyPath, fs, build.sgx);
              tls.Panicked? ==> r == Panicked(tls.reason)
    ensures var tls := AssembleTls(a.tlsCertPath, a.tlsSecretKeyPath, fs, build.sgx);
              tls.Failed? ==> r == Failed(tls.error)
    ensures var tls := AssembleTls(a.tlsCertPath, a.tlsSecretKeyPath, fs, build.sgx);
              tls.Done? && !starts(ConfigOf(a, tls.value)) ==> r == Panicked(FailedToStartServer)
    ensures var tls := AssembleTls(a.tlsCertPath, a.tlsSecretKeyPath, fs, build.sgx);
              tls.Done? && starts(ConfigOf(a, tls.value)) ==>
                && (ParseUsize(threads).Err? ==> r == Panicked(ThreadCountNotANumber))
                && (ParseUsize(threads) == Ok(0) && build.debugAssertions ==> r == Panicked(SubtractWithOverflow))
                && (ParseUsize(threads).Ok? && (ParseUsize(threads).value >= 1 || !build.debugAssertions) ==>
                      r.Done? && r.value.server.config == ConfigOf(a, tls.value))
  {
    match AssembleTls(a.tlsCertPath, a.tlsSecretKeyPath, fs, build.sgx)
    case Failed(e) => Failed(e)
    case Panicked(p) => Panicked(p)
    case Done(tls) =>
      var config := ConfigOf(a, tls);
      if !starts(config) then Panicked(FailedToStartServer)
      else
        match ParseUsize(threads)
        case Err(_) => Panicked(ThreadCountNotANumber)
        case Ok(n) =>
          match NumExtraThreads(n, build.debugAssertions)
          case None => Panicked(SubtractWithOverflow)
          case Some(extra) => Done(Serving(ServerHandle(config), extra))
  }
}
